=== FILE: README.md ===
# fin-nexus web client, modelled in Dafny

This project models the client-side logic of the fin-nexus web front end. The centre is the
chat-session engine of the `useFinNexus` hook. It keeps the message list, the thinking-step
trace, a four-valued status (`idle`, `connected`, `thinking`, `streaming`), the current session
id, the WebSocket handle and the buffer in which streamed tokens accumulate. It handles the inbound
frames (`step`, `token`, `error`, `done`, anything else, unparsable) and the operations
`sendMessage`, `loadSession`, `startNewSession` and `fetchSessions`. Around it sit three small
pure-logic cores:

- the model-configuration dialog: grouping models by provider, the per-agent configuration map,
  selection sync, save validation, save and "use default";
- the blueprint list page: search filter, delete by id, fetch, and the default new blueprint;
- the registration form: the order of its checks and the outcome of the request.

Every operation is a pure function of a state and an event. The WebSocket, `fetch`, the router,
toasts and `localStorage` are not called. What the code asks of them is returned as effects,
requests, notices or a navigation target. What they deliver comes back as a parameter: a decoded
frame, a `Reply`, a `Completion`, a "has token" flag, a confirmation flag. `Date.now()` and
`crypto.randomUUID()` become stamps and fresh ids carried by the events.

Files:

- `common.dfy`: `Option`, `Reply`, `Completion`, and JavaScript's `||` on strings.
- `seqs.dfy`: order-preserving `Filter`, subsequences and counts.
- `text.dfy`: `toLowerCase` (ASCII), `includes`, `trim` with the ECMAScript white-space set, and
  `length` in UTF-16 code units.
- `chat.dfy`, `chat_properties.dfy`: the hook as a transition system `Step(Engine, Event)`, and
  the lemmas over runs of events.
- `model_config.dfy`, `blueprints.dfy`, `register.dfy`: the three pages.

## Model

| member | source | states |
|---|---|---|
| Chat.OnOpen | src/hooks/use-fin-nexus.ts:109-112 | opening the channel sets the status to `connected` and changes nothing else: the held channel keeps its handle and session and becomes ready to send on; an `onopen` for another handle leaves the held channel as it was |
| Chat.CloseHandlerStatus | src/hooks/use-fin-nexus.ts:160-163 | the close handler can only ever write `idle`, and writes nothing when the captured status is `idle` |
| Chat.OnClose | src/hooks/use-fin-nexus.ts:160-163 | a closed handle is no longer live and cannot be sent on; because the closure captured the initial `idle`, the status is left unchanged; nothing else changes, and a close of a handle other than the held one leaves the held channel as it was |
| Chat.Upsert | src/hooks/use-fin-nexus.ts:132-142 | with no messages, or a user message last, a new assistant message holding the buffer is appended; otherwise only the last message's content becomes the buffer, and its id, its role and every earlier message stay as they were |
| Chat.OnFrame | src/hooks/use-fin-nexus.ts:114-158 | `step` appends its content to the trace and sets `thinking`; `token` appends to the buffer, upserts the assistant message and sets `streaming`; `done` sets `connected` and requests the session list and nothing else; `error`, unknown types and unparsable payloads change nothing |
| Chat.Send | src/hooks/use-fin-nexus.ts:169-184 | with no channel, or one that is not OPEN, nothing changes and nothing is sent; otherwise exactly one user message with the text is appended, the trace and the buffer are emptied, and the text is transmitted unmodified |
| Chat.CloseHeld | src/hooks/use-fin-nexus.ts:46-50 | the held handle, if any, is closed and dropped, and no longer live |
| Chat.Connect | src/hooks/use-fin-nexus.ts:94-166 | a channel for the session under a fresh handle becomes the held one and is live |
| Chat.Reset | src/hooks/use-fin-nexus.ts:52-55 | a session switch sets the session id, empties the messages and the trace, and sets `idle`; the buffer is kept |
| Chat.BeginLoad | src/hooks/use-fin-nexus.ts:45-61 | `loadSession` closes any held handle before anything else, resets to the given id, and starts the history fetch; the response buffer and the session list are kept |
| Chat.FinishLoadAsWritten | src/hooks/use-fin-nexus.ts:58-75 | the history replaces the messages only on an ok, readable reply; otherwise they stay; a channel is opened for the session in every case; the current session id, status, trace and buffer are left as they are |
| Chat.FinishLoad | src/hooks/use-fin-nexus.ts:58-75 | with the generation guard the code lacks (see Findings): as above for the load still awaited; a reply for a load superseded by a later switch changes nothing and opens nothing |
| Chat.StartNew | src/hooks/use-fin-nexus.ts:80-91 | `startNewSession` closes any held handle before opening one for the fresh id; it resets messages, trace and status, keeps the buffer and the session list, and supersedes any awaited history fetch; nothing else changes |
| Chat.ApplySessions | src/hooks/use-fin-nexus.ts:29-42 | the session list becomes `data` or `[]` on an ok reply, and is unchanged on a non-ok reply or a failure |
| Chat.Step | src/hooks/use-fin-nexus.ts:45-91 | with the generation guard the code lacks (see Findings): no event makes a second channel live: open channels are always the held one, and none is held while a history fetch is awaited; the generation never decreases and an awaited fetch always carries the latest one |
| Chat.StepAsWritten | src/hooks/use-fin-nexus.ts:45-184 | the hook as written agrees with the guarded engine on every event except a history reply for a superseded load, and every history reply opens one more live channel |
| Chat.RunAsWritten | src/hooks/use-fin-nexus.ts:45-184 | a run of the hook as written with no history replies ends in the same state as the guarded run |
| ChatProperties.StreamAssembly | src/hooks/use-fin-nexus.ts:128-180 | after a send on an open channel, any run of frames leaves the earlier messages, the user message, and at most one assistant message, whose content is the concatenation of all token contents |
| ChatProperties.FramesKeepSession | src/hooks/use-fin-nexus.ts:114-158 | inbound frames never change the session id, the held channel or the live handles |
| ChatProperties.InitialHasNoChannel | src/hooks/use-fin-nexus.ts:19-26 | the first render holds no channel and none is live |
| ChatProperties.RunKeepsOneLiveChannel | src/hooks/use-fin-nexus.ts:45-91 | with the generation guard the code lacks (see Findings): in every run of events at most one channel is live |
| ChatProperties.SupersededLoadIsDropped | src/hooks/use-fin-nexus.ts:58-75 | with the generation guard the code lacks (see Findings): when a second `loadSession` or a `startNewSession` follows a `loadSession`, the first load's history, whatever it is, changes nothing |
| ChatProperties.SupersededStaysDropped | src/hooks/use-fin-nexus.ts:58-75 | with the generation guard the code lacks (see Findings): once a ticket is superseded it stays so through any run of events, and its reply changes nothing and opens nothing |
| ChatProperties.LateReplyIsDropped | src/hooks/use-fin-nexus.ts:58-75 | with the generation guard the code lacks (see Findings): after a `loadSession` and a second `loadSession` or `startNewSession`, the first load's reply is dropped however many events come in between |
| ChatProperties.LeakedChannelAsWritten | src/hooks/use-fin-nexus.ts:58-75 | as written, a `startNewSession` during a pending `loadSession` ends with the old session's history under the new id and two live channels |
| ChatProperties.RaceTraceGuarded | src/hooks/use-fin-nexus.ts:58-75 | with the guard, the same events keep the new session, its empty list and its single channel |
| ChatProperties.ScenarioStep | src/hooks/use-fin-nexus.ts:123-126 | a `step` frame "searching web" gives status `thinking` and trace ["searching web"] |
| ChatProperties.ScenarioTokens | src/hooks/use-fin-nexus.ts:128-142 | tokens "Hello" and " world" give one assistant message "Hello world" and status `streaming` |
| ChatProperties.ScenarioDone | src/hooks/use-fin-nexus.ts:149-153 | `done` gives `connected` and one session-list request |
| ChatProperties.ScenarioSendHi | src/hooks/use-fin-nexus.ts:169-184 | `sendMessage("Hi")` appends the user message "Hi", clears the trace and transmits "Hi", whatever the buffer held |
| ModelConfig.OpenDialog | src/components/model-config-dialog.tsx:72-105 | opening clears the error and requests the model list, and the configurations only when a credential is stored; it sends no other request |
| ModelConfig.ModelsLoaded | src/components/model-config-dialog.tsx:78-83 | the model list becomes the body only when it is an array, and empty for any other JSON; a failed request keeps the list and sets the load error |
| ModelConfig.ConfigMap | src/components/model-config-dialog.tsx:93-98 | the map holds exactly the agent types that occur, each mapped to the last entry of that type |
| ModelConfig.LastForIsLast | src/components/model-config-dialog.tsx:94-97 | the entry kept for a type is the one at the last position of that type |
| ModelConfig.ConfigMapKeepsLast | src/components/model-config-dialog.tsx:94-97 | every entry's agent type is a key, and a later entry of the same type overwrites an earlier one |
| ModelConfig.ConfigsLoaded | src/components/model-config-dialog.tsx:88-101 | only an array body replaces the configurations; any other body or a failure leaves them unchanged |
| ModelConfig.GroupByProvider | src/components/model-config-dialog.tsx:207-211 | one group per provider that occurs; each group holds exactly that provider's models and is never empty |
| ModelConfig.GroupMembership | src/components/model-config-dialog.tsx:207-211 | a model is in a provider's group if and only if it is listed and has that provider |
| ModelConfig.GroupKeepsOrder | src/components/model-config-dialog.tsx:207-211 | each group keeps the input order |
| ModelConfig.FindModel | src/components/model-config-dialog.tsx:111 | `find` returns the first model with the name, or none when no model has it |
| ModelConfig.Sync | src/components/model-config-dialog.tsx:108-118 | with a config naming a non-empty model, the selection is the first model of that name or none, and the key is the saved key; otherwise no selection and an empty key |
| ModelConfig.SaveCheck | src/components/model-config-dialog.tsx:121-128 | the model is checked before the key; no model gives "请先选择一个模型"; a white-space-only key gives "请输入 API Key" |
| ModelConfig.SaveEnabled | src/components/model-config-dialog.tsx:331 | the save button is enabled exactly when no save is running and `handleSave`'s checks would pass |
| ModelConfig.DefaultEnabled | src/components/model-config-dialog.tsx:345 | the "use default" button is enabled exactly when no save is running and a successful delete would remove a stored configuration |
| ModelConfig.Save | src/components/model-config-dialog.tsx:120-171 | a failed check sends nothing; a sent request carries the key as typed; success writes only the selected agent's entry `{"", agent, provider, key, model, url}` and changes nothing else but the status lines; failure keeps every entry; other agents never change |
| ModelConfig.UseDefault | src/components/model-config-dialog.tsx:174-204 | success removes only the selected agent's entry, clears selection and key, and changes nothing else but the status lines; failure changes only the error and success lines |
| ModelConfig.SaveEnabledIffRequest | src/components/model-config-dialog.tsx:331 | when no save is running, the save button is enabled if and only if clicking it sends a request |
| ModelConfig.SaveThenSync | src/components/model-config-dialog.tsx:151-167 | after a successful save, the sync that follows shows the key as typed and the first model of the saved name |
| ModelConfig.UseDefaultRemovesOne | src/components/model-config-dialog.tsx:345 | with "use default" enabled, success removes exactly one entry and the sync that follows selects nothing |
| Blueprints.Search | src/app/blueprints/page.tsx:115-118 | keeps exactly the blueprints whose lower-cased name, or description if there is one, contains the lower-cased query, every copy of each, in list order; an empty query keeps the whole list |
| Blueprints.SearchIgnoresQueryCase | src/app/blueprints/page.tsx:115-118 | lower-casing the query first changes nothing |
| Blueprints.Fetch | src/app/blueprints/page.tsx:34-54 | with no credential, a redirect to login and loading stays on; otherwise `data` or `[]` on ok, unchanged on non-ok or failure, a toast only on failure and none otherwise, and loading off with the query kept |
| Blueprints.RemoveById | src/app/blueprints/page.tsx:108 | no entry with the id survives; every other entry stays, in order and as often as before |
| Blueprints.Delete | src/app/blueprints/page.tsx:96-113 | nothing without confirmation; entries are removed only on an ok reply; a non-ok reply or a failure leaves the list unchanged |
| Blueprints.NewDraft | src/app/blueprints/page.tsx:68-80 | the default body is well formed: "start-1" names a node, node ids are distinct, the start node's `next` and the single edge lead to "end-1", which is a node |
| Blueprints.Create | src/app/blueprints/page.tsx:56-94 | nothing at all without a credential (no toast, no request); with one, the posted body is the default draft, which is well formed; on success, navigation to the new blueprint; otherwise a toast with the server's error, "Creation failed", or "Failed to create blueprint" |
| Register.Validate | src/app/auth/register/page.tsx:25-33 | unequal passwords give "Passwords do not match" whatever their lengths; equal passwords shorter than 6 UTF-16 units give the length message; otherwise validation passes |
| Register.HandleRegister | src/app/auth/register/page.tsx:21-57 | a request is sent if and only if validation passes; navigation to "/auth/login?registered=true" happens if and only if the reply is ok; a non-ok reply shows the server's `error` or "Registration failed"; a thrown error shows its message |
| Register.ErrorClearedEachAttempt | src/app/auth/register/page.tsx:23 | the outcome of an attempt does not depend on the error line left by the previous one |
| Register.MismatchComesFirst | src/app/auth/register/page.tsx:25-33 | the length message only ever appears for confirmed passwords |
| Text.Includes | src/app/blueprints/page.tsx:116 | `includes` holds if and only if the query occurs at some position |
| Text.IncludesEmpty | src/app/blueprints/page.tsx:116 | every string includes the empty query |
| Text.ToLower | src/app/blueprints/page.tsx:116 | lower-casing keeps the length, maps each character, and leaves no ASCII capital |
| Text.TrimStart | src/components/model-config-dialog.tsx:125 | only leading white space is removed, and all of it |
| Text.TrimEnd | src/components/model-config-dialog.tsx:125 | only trailing white space is removed, and all of it |
| Text.Trim | src/components/model-config-dialog.tsx:125 | `trim` returns a slice of the key with only white space around it and none at either end |
| Text.TrimEmptyIffBlank | src/components/model-config-dialog.tsx:125 | a key trims to empty if and only if it is made only of white space |
| Text.Utf16Length | src/app/auth/register/page.tsx:30 | `length` counts UTF-16 units: between the number of characters and twice that, and equal to it for text in the Basic Multilingual Plane |
| Text.Utf16LengthOne | src/app/auth/register/page.tsx:30 | a character outside the Basic Multilingual Plane counts two units, any other one |
| Text.Utf16LengthAppend | src/app/auth/register/page.tsx:30 | the length of a concatenation is the sum of the lengths, so `length` is the per-character sum |
| Common.OrElse | src/app/auth/register/page.tsx:47 | `error || fallback` gives the fallback exactly when the error is missing or empty |

## Behaviour of the code worth knowing

Each item below is what the code does, and the model does the same.

- Closing a channel does not make the status `idle`. The close handler is a closure created once,
  with the first render's status, `idle`. Its guard `status !== "idle"` is therefore always false.
  `Chat.OnClose` leaves the status unchanged, and `Chat.CloseHandlerStatus` shows the guarded write.
- The response buffer is not reset by `loadSession` or `startNewSession`. Only `sendMessage`
  empties it (`Chat.Reset` keeps it).
- Sending on a channel that is not open only logs and returns. Nothing distinguishable reaches
  the caller, so `Chat.Send` returns the state unchanged with no effects.
- Error frames are only logged. They change neither the messages nor the status.

## Findings

| source | as written | input that shows it | evidently intended | confidence | as-written member | corrected member |
|---|---|---|---|---|---|---|
| src/hooks/use-fin-nexus.ts:58-75 | after the awaited history fetch, `loadSession` replaces the messages and calls `connect` even if another session switch ran meanwhile; `connect` overwrites the held handle without closing it | `loadSession("a")`, then `startNewSession("b")` before the fetch resolves, then the fetch resolves | a superseded load is dropped: the messages belong to the current session and at most one channel is live (the code closes the old handle before every switch) | high, not executed | ChatProperties.LeakedChannelAsWritten | ChatProperties.RunKeepsOneLiveChannel |

The corrected engine tags each history fetch with a generation ticket. `Chat.FinishLoad` applies
only the ticket still awaited, and `Chat.Step` uses it. `Chat.StepAsWritten` differs only in
using `Chat.FinishLoadAsWritten`.

## Left out

- History roles are cast, not checked (src/hooks/use-fin-nexus.ts:65-68). The model's `Role` is
  closed, so a message with an unknown role string cannot be represented.

- Transport and I/O: the WebSocket, `fetch`, `localStorage`, the router, toasts and console logging
  are abstracted. Inbound data comes in as event parameters; outbound actions go out as effects,
  requests or notices.
- The connection URL (src/hooks/use-fin-nexus.ts:105), the unused protocol choice (line 96) and the
  bearer credential are left out. They only travel to the server.
- JSON decoding is not modelled. Frames arrive already decoded as `Chat.Frame`, with `Malformed` for
  unparsable payloads. Response bodies arrive as `Reply`, `ModelConfig.Body` or the per-page
  reply types.
- A `step` or `token` frame without a `content` field is left out. In the code it would append
  `undefined` (the text "undefined" for tokens).
- Frames are only delivered by an open, live socket. `Chat.Step` handles any frame it is given and
  does not model which socket delivered it.
- React's batching of state updates is not modelled: each event's updates apply before the next
  event. The token updater reads the buffer when React runs it, so tokens processed before a
  re-render all see the final buffer. Its net effect on messages is the same, except when a send
  falls between them.
- Uniqueness of `Date.now()` message ids and `crypto.randomUUID()` session ids is not modelled. They
  are parameters of the events.
- The timer-based first send after `startNewSession` in src/app/page.tsx:94 is out of scope. So is
  the rest of that page's rendering. The code has no queue for a send made before the channel opens.
- ModelConfig: the `loading` flag is set and cleared in the same effect, so it is not modelled.
  Rendering, provider labels and colours are left out.
- ModelConfig: configuration fields are strings, so `config.api_key || ""` is the key itself. Entries
  with missing fields are not modelled.
- ModelConfig: groups are a map, so the display order of `Object.entries` is not modelled. JavaScript
  object-key quirks (integer-like provider names, `__proto__`) are not modelled either.
- Text.ToLower: only ASCII letters are mapped. Full Unicode case mapping is left out.
- Blueprints: the `nodes` array of a listed blueprint, node `config` objects, and the blueprint
  editor are not modelled. The `confirm()` dialog is a boolean parameter.
- Register: the in-flight `isLoading = true` is not modelled; only its final value is. A non-string
  `error` field in a reply body is left out, and so are email checks (the code does none).
- The morning-brief dialog, the login page, the auth layout and the custom editor nodes are not
  part of this model. They are rendering, dates or plain fetch glue.

=== FILE: blueprints.dfy ===
/** The blueprint list page: the list fetched from the server, the search filter over it,
    deletion by id, and the body of a new blueprint. */
module Blueprints {
  import opened Common
  import Seqs
  import Text

  /** A listed blueprint; its node list is not inspected by the page and is left out. */
  datatype Blueprint = Blueprint(
    id: string, name: string, description: Option<string>, updatedAt: string, isPublic: bool)

  datatype Page = Page(blueprints: seq<Blueprint>, query: string, loading: bool)

  /** A toast shown to the user. */
  datatype Notice = Quiet | Success(text: string) | Failure(text: string)

  /** What an action leaves behind: the page, the toast, where the router goes, whether a request
      went out, and the blueprint body it posted, if any. */
  datatype Outcome = Outcome(
    page: Page, notice: Notice, navigateTo: Option<string>, sent: bool, posted: Option<Draft>)

  const Initial: Page := Page([], "", true)

  const LoginPath := "/auth/login"
  const LoadFailed := "Failed to load bluerprints"
  const DeleteDone := "Blueprint deleted"
  const DeleteFailed := "Delete failed"
  const CreateDone := "Blueprint created"
  const CreateRefused := "Creation failed"
  const CreateFailed := "Failed to create blueprint"

  // ---------------------------------------------------------------------------------
  // Search

  /** The lower-cased name, or the lower-cased description when there is one, contains the
      lower-cased query. */
  predicate Matches(b: Blueprint, query: string)
  {
    var q := Text.ToLower(query);
    || Text.Includes(Text.ToLower(b.name), q)
    || (b.description.Some? && Text.Includes(Text.ToLower(b.description.value), q))
  }

  /** The `filtered` list: exactly the matching blueprints, in list order; an empty query
      keeps the whole list. */
  function Search(bps: seq<Blueprint>, query: string): (r: seq<Blueprint>)
    ensures forall b :: b in r <==> b in bps && Matches(b, query)
    ensures forall b :: Matches(b, query) ==> Seqs.Count(r, b) == Seqs.Count(bps, b)
    ensures Seqs.IsSubsequence(r, bps)
    ensures query == "" ==> r == bps
  {
    var r := Seqs.Filter(bps, (b: Blueprint) => Matches(b, query));
    assert query == "" ==> r == bps by {
      if query == "" {
        EmptyQueryMatchesAll(bps);
        Seqs.FilterKeepsAll(bps, (b: Blueprint) => Matches(b, query));
      }
    }
    r
  }

  /** Every blueprint matches the empty query, since every name includes "". */
  lemma EmptyQueryMatchesAll(bps: seq<Blueprint>)
    ensures forall i :: 0 <= i < |bps| ==> Matches(bps[i], "")
  {
    forall i | 0 <= i < |bps| ensures Matches(bps[i], "") {
      Text.IncludesEmpty(Text.ToLower(bps[i].name));
    }
  }

  /** Searching is blind to the case of ASCII letters in the query. */
  lemma SearchIgnoresQueryCase(bps: seq<Blueprint>, query: string)
    ensures Search(bps, Text.ToLower(query)) == Search(bps, query)
  {
    Text.ToLowerIdempotent(query);
    Seqs.FilterCongruent(bps, (b: Blueprint) => Matches(b, Text.ToLower(query)),
                         (b: Blueprint) => Matches(b, query));
  }

  // ---------------------------------------------------------------------------------
  // Fetch, delete, create

  /** `fetchBlueprints`: without a stored credential, a redirect to the login page and the page
      left loading; otherwise `data || []` on an ok reply, the list unchanged on a non-ok reply
      or a failure (with a toast), and loading over in every case. */
  function Fetch(p: Page, hasToken: bool, reply: Reply<seq<Blueprint>>): (o: Outcome)
    ensures !hasToken ==> o == Outcome(p, Quiet, Some(LoginPath), false, None)
    ensures hasToken ==> o.sent && o.navigateTo.None? && !o.page.loading && o.page.query == p.query
    ensures hasToken && reply.Ok? ==>
      o.page.blueprints == (if reply.body.Some? then reply.body.value else [])
    ensures hasToken && !reply.Ok? ==> o.page.blueprints == p.blueprints
    ensures hasToken ==> (o.notice == Failure(LoadFailed) <==> reply.Failed?)
    ensures hasToken && !reply.Failed? ==> o.notice == Quiet
    ensures hasToken ==> o.page == p.(blueprints := o.page.blueprints, loading := false) && o.posted.None?
  {
    if !hasToken then Outcome(p, Quiet, Some(LoginPath), false, None)
    else
      match reply
      case Ok(body) =>
        Outcome(p.(blueprints := if body.Some? then body.value else [], loading := false), Quiet, None, true, None)
      case NotOk => Outcome(p.(loading := false), Quiet, None, true, None)
      case Failed => Outcome(p.(loading := false), Failure(LoadFailed), None, true, None)
  }

  /** `prev.filter(b => b.id !== id)`: every entry with that id goes, every other entry stays,
      in order and as often as it occurred. */
  function RemoveById(bps: seq<Blueprint>, id: string): (r: seq<Blueprint>)
    ensures forall b :: b in r ==> b.id != id
    ensures forall b: Blueprint :: b.id != id ==> Seqs.Count(r, b) == Seqs.Count(bps, b)
    ensures Seqs.IsSubsequence(r, bps)
  {
    Seqs.Filter(bps, (b: Blueprint) => b.id != id)
  }

  /** `handleDelete`: nothing without the user's confirmation; the entries go only on an ok
      reply; a non-ok reply changes nothing silently, a failure shows a toast. */
  function Delete(p: Page, id: string, confirmed: bool, reply: Completion): (o: Outcome)
    ensures !confirmed ==> o == Outcome(p, Quiet, None, false, None)
    ensures confirmed && reply == Completed(true) ==>
      o == Outcome(p.(blueprints := RemoveById(p.blueprints, id)), Success(DeleteDone), None, true, None)
    ensures confirmed && reply == Completed(false) ==> o == Outcome(p, Quiet, None, true, None)
    ensures confirmed && reply.Threw? ==> o == Outcome(p, Failure(DeleteFailed), None, true, None)
  {
    if !confirmed then Outcome(p, Quiet, None, false, None)
    else
      match reply
      case Completed(ok) =>
        if ok then Outcome(p.(blueprints := RemoveById(p.blueprints, id)), Success(DeleteDone), None, true, None)
        else Outcome(p, Quiet, None, true, None)
      case Threw => Outcome(p, Failure(DeleteFailed), None, true, None)
  }

  datatype NodeKind = StartKind | EndKind

  datatype Node = Node(id: string, kind: NodeKind, next: Option<string>)

  datatype Edge = Edge(source: string, target: string)

  /** The body `handleCreate` posts. */
  datatype Draft = Draft(
    name: string, description: string, startNodeId: string,
    nodes: seq<Node>, edges: seq<Edge>, isPublic: bool)

  predicate HasNode(d: Draft, id: string)
  {
    exists i :: 0 <= i < |d.nodes| && d.nodes[i].id == id
  }

  /** A workflow graph a run can start on: the start id names a node, node ids are distinct,
      and every `next` and every edge end names a node. */
  predicate WellFormed(d: Draft)
  {
    && HasNode(d, d.startNodeId)
    && (forall i, j :: 0 <= i < j < |d.nodes| ==> d.nodes[i].id != d.nodes[j].id)
    && (forall i :: 0 <= i < |d.nodes| && d.nodes[i].next.Some? ==> HasNode(d, d.nodes[i].next.value))
    && (forall i :: 0 <= i < |d.edges| ==> HasNode(d, d.edges[i].source) && HasNode(d, d.edges[i].target))
  }

  /** The default new blueprint: a start node whose `next` and single edge lead to an end
      node, private, under a placeholder name. */
  function NewDraft(): (d: Draft)
    ensures WellFormed(d)
    ensures d.startNodeId == "start-1" && !d.isPublic
    ensures exists i :: 0 <= i < |d.nodes| && d.nodes[i] == Node("start-1", StartKind, Some("end-1"))
    ensures HasNode(d, "end-1")
    ensures d.edges == [Edge("start-1", "end-1")]
  {
    var d := Draft("New Blueprint", "Describe your workflow...", "start-1",
                   [Node("start-1", StartKind, Some("end-1")), Node("end-1", EndKind, None)],
                   [Edge("start-1", "end-1")], false);
    assert d.nodes[0].id == "start-1" && d.nodes[1].id == "end-1";
    d
  }

  /** What the create request came back with. */
  datatype CreateReply = Created(id: string) | Refused(error: Option<string>) | CreateThrew

  /** `handleCreate`: nothing without a credential; otherwise the default draft is posted and
      the user is taken to the new blueprint, or told why it failed. */
  function Create(p: Page, hasToken: bool, reply: CreateReply): (o: Outcome)
    ensures o.page == p
    ensures !hasToken ==> o == Outcome(p, Quiet, None, false, None)
    ensures o.sent <==> hasToken
    ensures hasToken ==> o.posted == Some(NewDraft())
    ensures !hasToken ==> o.posted.None?
    ensures o.posted.Some? ==> WellFormed(o.posted.value) && o.posted.value.nodes != []
    ensures o.navigateTo.Some? <==> hasToken && reply.Created?
    ensures hasToken && reply.Created? ==>
      o.navigateTo == Some("/blueprints/" + reply.id) && o.notice == Success(CreateDone)
    ensures hasToken && reply.Refused? ==> o.notice == Failure(OrElse(reply.error, CreateRefused))
    ensures hasToken && reply.CreateThrew? ==> o.notice == Failure(CreateFailed)
  {
    if !hasToken then Outcome(p, Quiet, None, false, None)
    else
      var body := Some(NewDraft());
      match reply
      case Created(id) => Outcome(p, Success(CreateDone), Some("/blueprints/" + id), true, body)
      case Refused(error) => Outcome(p, Failure(OrElse(error, CreateRefused)), None, true, body)
      case CreateThrew => Outcome(p, Failure(CreateFailed), None, true, body)
  }
}

=== FILE: chat.dfy ===
/** The chat-session engine of the `useFinNexus` hook: the message list, the thinking-step
    trace, the four-valued status, the current session id, the channel handle and the
    response buffer, driven by one pure transition per event.

    The WebSocket and `fetch` are not called: what the hook asks of them comes out of a
    transition as a list of effects, and what they deliver comes back in as an event. */
module Chat {
  import opened Common

  datatype Role = User | Assistant | System

  datatype Message = Message(id: string, role: Role, content: string, createdAt: Option<string>)

  datatype Session = Session(id: string, title: string, createdAt: string, updatedAt: string)

  datatype Status = Idle | Connected | Thinking | Streaming

  /** The channel's `readyState`; CLOSING is folded into Closed. `ChannelClosed` marks the
      moment `readyState` leaves OPEN: from then on a send does nothing, and the close handler
      itself writes nothing, so the two states behave alike. */
  datatype ReadyState = Connecting | Open | Closed

  /** An opened channel: a fresh handle number and the session it was opened for. */
  datatype Channel = Channel(handle: nat, sessionId: string, ready: ReadyState)

  /** Identifies one history fetch started by `loadSession`. */
  datatype Ticket = Ticket(generation: nat, sessionId: string)

  /** A decoded inbound frame: `{type: "step" | "token" | "error" | "done", content}`,
      any other `type`, or a payload that is not JSON (or is JSON `null`). */
  datatype Frame =
    | ThinkingStep(content: string)
    | Token(content: string)
    | AgentError(content: string)
    | Done
    | Unknown(kind: string)
    | Malformed(raw: string)

  /** Everything that can happen to the hook. A `stamp` is the `Date.now()` text a new
      message would take as its id; a fresh session id stands for `crypto.randomUUID()`. */
  datatype Event =
    | ChannelOpened(handle: nat)
    | ChannelClosed(handle: nat)
    | FrameReceived(frame: Frame, stamp: string)
    | SendMessage(text: string, stamp: string)
    | LoadSession(sessionId: string)
    | HistoryFetched(ticket: Ticket, history: Reply<seq<Message>>)
    | StartNewSession(freshId: string)
    | FetchSessions
    | SessionsFetched(sessions: Reply<seq<Session>>)

  /** What a transition asks of the outside world, in order. */
  datatype Effect =
    | OpenChannel(handle: nat, sessionId: string)
    | CloseChannel(handle: nat)
    | Transmit(handle: nat, text: string)
    | RequestHistory(ticket: Ticket)
    | RequestSessions

  /** The hook's state. `live` holds the handles opened and not yet closed by either side;
      `generation` and `awaiting` identify the one history fetch whose result is still wanted. */
  datatype Engine = Engine(
    messages: seq<Message>,
    thinkingSteps: seq<string>,
    status: Status,
    sessions: seq<Session>,
    currentSessionId: Option<string>,
    channel: Option<Channel>,
    buffer: string,
    live: set<nat>,
    nextHandle: nat,
    generation: nat,
    awaiting: Option<Ticket>)

  datatype Outcome = Outcome(state: Engine, effects: seq<Effect>)

  /** The state at first render. */
  const Initial: Engine := Engine([], [], Idle, [], None, None, "", {}, 0, 0, None)

  /** The status the close handler sees. The handler is a closure made once, when the
      first `connect` callback was created, so it sees the first render's status. */
  const CapturedStatus: Status := Initial.status

  /** The channel is present and its ready state is OPEN. */
  predicate CanSend(s: Engine)
  {
    s.channel.Some? && s.channel.value.ready == Open
  }

  /** The handles the hook still refers to. */
  function HeldHandles(s: Engine): set<nat>
  {
    if s.channel.Some? then {s.channel.value.handle} else {}
  }

  /** Every channel still open belongs to the handle the hook holds, and while a history
      fetch is awaited the hook holds no handle. */
  predicate AtMostOneLiveChannel(s: Engine)
  {
    && s.live <= HeldHandles(s)
    && (s.awaiting.Some? ==> s.channel.None?)
  }

  /** The fetch still awaited, if any, carries the latest generation: every earlier ticket
      has been superseded. */
  predicate TicketsCurrent(s: Engine)
  {
    s.awaiting.Some? ==> s.awaiting.value.generation == s.generation
  }

  lemma LiveChannelCount(s: Engine)
    requires AtMostOneLiveChannel(s)
    ensures |s.live| <= 1
  {
    if s.channel.Some? {
      var h := s.channel.value.handle;
      assert s.live == {} || s.live == {h} by {
        if h !in s.live {
          assert forall x :: x in s.live ==> false;
        }
      }
    } else {
      assert s.live == {};
    }
  }

  // ---------------------------------------------------------------------------------
  // Channel lifecycle

  /** `onopen`: the status becomes `connected`; the held handle becomes ready for sending. */
  function OnOpen(s: Engine, handle: nat): (r: Engine)
    ensures r.status == Connected
    ensures r == s.(status := Connected, channel := r.channel)
    ensures r.channel.Some? <==> s.channel.Some?
    ensures !(s.channel.Some? && s.channel.value.handle == handle) ==> r.channel == s.channel
    ensures s.channel.Some? ==>
      r.channel.value.handle == s.channel.value.handle
      && r.channel.value.sessionId == s.channel.value.sessionId
    ensures CanSend(r) <==> CanSend(s) || (s.channel.Some? && s.channel.value.handle == handle)
  {
    var channel :=
      if s.channel.Some? && s.channel.value.handle == handle
      then Some(s.channel.value.(ready := Open))
      else s.channel;
    s.(status := Connected, channel := channel)
  }

  /** The close handler's status write: `if (status !== "idle") setStatus("idle")`, where
      `status` is the value the closure captured. */
  function CloseHandlerStatus(captured: Status, current: Status): (r: Status)
    ensures r == current || r == Idle
    ensures captured == Idle ==> r == current
    ensures captured != Idle ==> r == Idle
  {
    if captured != Idle then Idle else current
  }

  /** `onclose`: the channel is no longer live and cannot be sent on; the status write is
      guarded by the captured (initial, idle) status, so the status is left as it was. */
  function OnClose(s: Engine, handle: nat): (r: Engine)
    ensures handle !in r.live && r.live == s.live - {handle}
    ensures r.status == s.status
    ensures s.channel.Some? && s.channel.value.handle == handle ==> !CanSend(r)
    ensures r.messages == s.messages && r.thinkingSteps == s.thinkingSteps && r.buffer == s.buffer
    ensures r.currentSessionId == s.currentSessionId && r.sessions == s.sessions
    ensures r == s.(live := s.live - {handle}, channel := r.channel)
    ensures !(s.channel.Some? && s.channel.value.handle == handle) ==> r.channel == s.channel
    ensures s.channel.Some? ==>
      && r.channel.Some? && r.channel.value.handle == s.channel.value.handle
      && r.channel.value.sessionId == s.channel.value.sessionId
  {
    var channel :=
      if s.channel.Some? && s.channel.value.handle == handle
      then Some(s.channel.value.(ready := Closed))
      else s.channel;
    s.(status := CloseHandlerStatus(CapturedStatus, s.status), live := s.live - {handle},
       channel := channel)
  }

  // ---------------------------------------------------------------------------------
  // Inbound frames

  /** A token starts a new assistant message when there is no message yet or the last
      one is the user's. */
  predicate OpensTurn(msgs: seq<Message>)
  {
    |msgs| == 0 || msgs[|msgs| - 1].role == User
  }

  /** The `setMessages` updater of a token frame: either one new assistant message holding
      `text`, or the last message with its content replaced by `text`. */
  function Upsert(msgs: seq<Message>, text: string, stamp: string): (r: seq<Message>)
    ensures OpensTurn(msgs) ==> r == msgs + [Message(stamp, Assistant, text, None)]
    ensures !OpensTurn(msgs) ==>
      && |r| == |msgs|
      && r[..|r| - 1] == msgs[..|msgs| - 1]
      && r[|r| - 1].content == text
      && r[|r| - 1] == msgs[|msgs| - 1].(content := text)
    ensures |r| > 0 && !OpensTurn(r)
  {
    if OpensTurn(msgs) then msgs + [Message(stamp, Assistant, text, None)]
    else msgs[|msgs| - 1 := msgs[|msgs| - 1].(content := text)]
  }

  /** `onmessage`. */
  function OnFrame(s: Engine, f: Frame, stamp: string): (o: Outcome)
    ensures f.ThinkingStep? ==>
      o == Outcome(s.(status := Thinking, thinkingSteps := s.thinkingSteps + [f.content]), [])
    ensures f.Token? ==>
      && o.effects == []
      && o.state.buffer == s.buffer + f.content
      && o.state.status == Streaming
      && o.state.messages == Upsert(s.messages, o.state.buffer, stamp)
      && o.state == s.(status := Streaming, buffer := o.state.buffer, messages := o.state.messages)
    ensures f.Done? ==> o == Outcome(s.(status := Connected), [RequestSessions])
    ensures f.AgentError? || f.Unknown? || f.Malformed? ==> o == Outcome(s, [])
  {
    match f
    case ThinkingStep(c) =>
      Outcome(s.(status := Thinking, thinkingSteps := s.thinkingSteps + [c]), [])
    case Token(c) =>
      var buffer := s.buffer + c;
      Outcome(s.(status := Streaming, buffer := buffer, messages := Upsert(s.messages, buffer, stamp)), [])
    case AgentError(_) => Outcome(s, [])
    case Done => Outcome(s.(status := Connected), [RequestSessions])
    case Unknown(_) => Outcome(s, [])
    case Malformed(_) => Outcome(s, [])
  }

  // ---------------------------------------------------------------------------------
  // Outbound operations

  /** `sendMessage(text)`: nothing at all unless the held channel is OPEN; otherwise one
      user message, an empty trace and buffer, and `text` transmitted as it is. */
  function Send(s: Engine, text: string, stamp: string): (o: Outcome)
    ensures !CanSend(s) ==> o == Outcome(s, [])
    ensures CanSend(s) ==>
      && o.state.messages == s.messages + [Message(stamp, User, text, None)]
      && o.state.thinkingSteps == []
      && o.state.buffer == ""
      && o.effects == [Transmit(s.channel.value.handle, text)]
      && o.state == s.(messages := o.state.messages, thinkingSteps := [], buffer := "")
  {
    if !CanSend(s) then Outcome(s, [])
    else
      Outcome(s.(messages := s.messages + [Message(stamp, User, text, None)],
                 thinkingSteps := [], buffer := ""),
              [Transmit(s.channel.value.handle, text)])
  }

  /** Closing the held handle, if any: the close effect and the state without it. */
  function CloseHeld(s: Engine): (o: Outcome)
    ensures o.state.channel.None?
    ensures o.state.live == s.live - HeldHandles(s)
    ensures s.channel.Some? ==> o.effects == [CloseChannel(s.channel.value.handle)]
    ensures s.channel.None? ==> o.effects == []
  {
    if s.channel.Some? then
      Outcome(s.(channel := None, live := s.live - {s.channel.value.handle}),
              [CloseChannel(s.channel.value.handle)])
    else Outcome(s, [])
  }

  /** `connect(token, sessionId)`: a new channel under a fresh handle becomes the held one. */
  function Connect(s: Engine, sessionId: string): (o: Outcome)
    ensures o.state.channel == Some(Channel(s.nextHandle, sessionId, Connecting))
    ensures o.state.live == s.live + {s.nextHandle}
    ensures o.state.nextHandle > s.nextHandle
    ensures o.effects == [OpenChannel(s.nextHandle, sessionId)]
  {
    Outcome(s.(channel := Some(Channel(s.nextHandle, sessionId, Connecting)),
               live := s.live + {s.nextHandle}, nextHandle := s.nextHandle + 1),
            [OpenChannel(s.nextHandle, sessionId)])
  }

  /** The state both session switches reset to: the given id, no messages, no trace, idle.
      The response buffer is left as it is. */
  function Reset(s: Engine, sessionId: string): (r: Engine)
    ensures r.currentSessionId == Some(sessionId)
    ensures r.messages == [] && r.thinkingSteps == [] && r.status == Idle
    ensures r.buffer == s.buffer && r.channel == s.channel && r.live == s.live
  {
    s.(currentSessionId := Some(sessionId), messages := [], thinkingSteps := [], status := Idle)
  }

  /** `loadSession(token, sessionId)` up to its `await`: the held channel is closed, the
      state reset, and the history fetch started under a new ticket. */
  function BeginLoad(s: Engine, sessionId: string): (o: Outcome)
    ensures o.state.currentSessionId == Some(sessionId)
    ensures o.state.messages == [] && o.state.thinkingSteps == [] && o.state.status == Idle
    ensures o.state.channel.None? && o.state.live == s.live - HeldHandles(s)
    ensures o.state.awaiting == Some(Ticket(s.generation + 1, sessionId))
    ensures s.channel.Some? ==>
      o.effects == [CloseChannel(s.channel.value.handle), RequestHistory(Ticket(s.generation + 1, sessionId))]
    ensures s.channel.None? ==> o.effects == [RequestHistory(Ticket(s.generation + 1, sessionId))]
    ensures o.state.generation == s.generation + 1
    ensures o.state.buffer == s.buffer && o.state.sessions == s.sessions
    ensures o.state.nextHandle == s.nextHandle
  {
    var closed := CloseHeld(s);
    var ticket := Ticket(s.generation + 1, sessionId);
    Outcome(Reset(closed.state, sessionId).(generation := ticket.generation, awaiting := Some(ticket)),
            closed.effects + [RequestHistory(ticket)])
  }

  /** The rest of `loadSession`, as the source has it: the fetched history replaces the
      messages when the reply is ok and readable, and a channel for the ticket's session is
      opened in any case, whatever happened since the fetch began. */
  function FinishLoadAsWritten(s: Engine, t: Ticket, history: Reply<seq<Message>>): (o: Outcome)
    ensures history.Ok? && history.body.Some? ==> o.state.messages == history.body.value
    ensures !(history.Ok? && history.body.Some?) ==> o.state.messages == s.messages
    ensures o.state.channel == Some(Channel(s.nextHandle, t.sessionId, Connecting))
    ensures o.state.live == s.live + {s.nextHandle}
    ensures o.effects == [OpenChannel(s.nextHandle, t.sessionId)]
    ensures o.state == s.(messages := o.state.messages, channel := o.state.channel, live := o.state.live,
                          nextHandle := s.nextHandle + 1, awaiting := None)
  {
    var messages := if history.Ok? && history.body.Some? then history.body.value else s.messages;
    Connect(s.(messages := messages, awaiting := None), t.sessionId)
  }

  /** The rest of `loadSession`, guarded: a reply for a fetch that a later session switch
      superseded is dropped, and neither touches the messages nor opens a channel. */
  function FinishLoad(s: Engine, t: Ticket, history: Reply<seq<Message>>): (o: Outcome)
    ensures s.awaiting != Some(t) ==> o == Outcome(s, [])
    ensures s.awaiting == Some(t) ==>
      && o == FinishLoadAsWritten(s, t, history)
      && o.state.awaiting.None?
  {
    if s.awaiting == Some(t) then FinishLoadAsWritten(s, t, history) else Outcome(s, [])
  }

  /** `startNewSession(token)`: the held channel is closed, the state reset to the fresh id,
      and a channel for it opened at once; a history fetch still in flight is superseded. */
  function StartNew(s: Engine, freshId: string): (o: Outcome)
    ensures o.state.currentSessionId == Some(freshId)
    ensures o.state.messages == [] && o.state.thinkingSteps == [] && o.state.status == Idle
    ensures o.state.buffer == s.buffer
    ensures o.state.channel == Some(Channel(s.nextHandle, freshId, Connecting))
    ensures o.state.live == (s.live - HeldHandles(s)) + {s.nextHandle}
    ensures o.state.awaiting.None?
    ensures s.channel.Some? ==> o.effects == [CloseChannel(s.channel.value.handle), OpenChannel(s.nextHandle, freshId)]
    ensures s.channel.None? ==> o.effects == [OpenChannel(s.nextHandle, freshId)]
    ensures o.state == s.(currentSessionId := Some(freshId), messages := [], thinkingSteps := [],
                          status := Idle, channel := o.state.channel, live := o.state.live,
                          nextHandle := s.nextHandle + 1, awaiting := None)
  {
    var closed := CloseHeld(s);
    var started := Connect(Reset(closed.state, freshId).(awaiting := None), freshId);
    Outcome(started.state, closed.effects + started.effects)
  }

  /** The session list after `fetchSessions` resolves: `data || []` on an ok reply,
      unchanged on a non-ok reply or a failure. */
  function ApplySessions(s: Engine, reply: Reply<seq<Session>>): (r: Engine)
    ensures reply.Ok? && reply.body.Some? ==> r.sessions == reply.body.value
    ensures reply.Ok? && reply.body.None? ==> r.sessions == []
    ensures !reply.Ok? ==> r.sessions == s.sessions
    ensures r == s.(sessions := r.sessions)
  {
    match reply
    case Ok(body) => s.(sessions := if body.Some? then body.value else [])
    case NotOk => s
    case Failed => s
  }

  // ---------------------------------------------------------------------------------
  // The transition system

  /** One event, with the guarded history fetch. */
  function Step(s: Engine, e: Event): (o: Outcome)
    ensures AtMostOneLiveChannel(s) ==> AtMostOneLiveChannel(o.state)
    ensures TicketsCurrent(s) ==> TicketsCurrent(o.state)
    ensures s.generation <= o.state.generation
  {
    match e
    case ChannelOpened(h) => Outcome(OnOpen(s, h), [])
    case ChannelClosed(h) => Outcome(OnClose(s, h), [])
    case FrameReceived(f, stamp) => OnFrame(s, f, stamp)
    case SendMessage(text, stamp) => Send(s, text, stamp)
    case LoadSession(id) => BeginLoad(s, id)
    case HistoryFetched(t, history) => FinishLoad(s, t, history)
    case StartNewSession(id) => StartNew(s, id)
    case FetchSessions => Outcome(s, [RequestSessions])
    case SessionsFetched(reply) => Outcome(ApplySessions(s, reply), [])
  }

  /** One event, with the history fetch as the source has it: it agrees with `Step` on every
      event but a history reply for a superseded load, and every history reply, superseded or
      not, opens one more channel. */
  function StepAsWritten(s: Engine, e: Event): (o: Outcome)
    ensures !e.HistoryFetched? ==> o == Step(s, e)
    ensures e.HistoryFetched? && s.awaiting == Some(e.ticket) ==> o == Step(s, e)
    ensures e.HistoryFetched? ==>
      o.state.live == s.live + {s.nextHandle} && o.effects == [OpenChannel(s.nextHandle, e.ticket.sessionId)]
  {
    match e
    case HistoryFetched(t, history) => FinishLoadAsWritten(s, t, history)
    case _ => Step(s, e)
  }

  /** The state after a sequence of events. */
  function Run(s: Engine, es: seq<Event>): Engine
  {
    if |es| == 0 then s else Step(Run(s, es[..|es| - 1]), es[|es| - 1]).state
  }

  /** The state after a sequence of events, with the history fetch as the source has it; without
      history replies it is the same as `Run`. */
  function RunAsWritten(s: Engine, es: seq<Event>): (r: Engine)
    ensures (forall i :: 0 <= i < |es| ==> !es[i].HistoryFetched?) ==> r == Run(s, es)
  {
    if |es| == 0 then s else StepAsWritten(RunAsWritten(s, es[..|es| - 1]), es[|es| - 1]).state
  }
}

=== FILE: chat_properties.dfy ===
/** Properties of the chat-session engine that relate several events. */
module ChatProperties {
  import opened Common
  import opened Chat

  // ---------------------------------------------------------------------------------
  // Streaming assembly

  predicate AllFrames(es: seq<Event>)
  {
    forall i :: 0 <= i < |es| ==> es[i].FrameReceived?
  }

  /** The contents of the token frames among `es`, concatenated in arrival order. */
  function TokenText(es: seq<Event>): string
  {
    if |es| == 0 then ""
    else
      var e := es[|es| - 1];
      TokenText(es[..|es| - 1]) + (if e.FrameReceived? && e.frame.Token? then e.frame.content else "")
  }

  /** The stamp of the first token frame among `es`, if there is one. */
  function FirstTokenStamp(es: seq<Event>): Option<string>
  {
    if |es| == 0 then None
    else
      var e := es[|es| - 1];
      var earlier := FirstTokenStamp(es[..|es| - 1]);
      if earlier.Some? then earlier
      else if e.FrameReceived? && e.frame.Token? then Some(e.stamp)
      else None
  }

  /** The assistant message the frames `es` have built after a send: none before the first
      token, afterwards one message holding all token text. */
  function AssistantTurn(es: seq<Event>): seq<Message>
  {
    match FirstTokenStamp(es)
    case None => []
    case Some(id) => [Message(id, Assistant, TokenText(es), None)]
  }

  lemma {:induction false} NoTokenNoText(es: seq<Event>)
    requires FirstTokenStamp(es).None?
    ensures TokenText(es) == ""
  {
    if |es| > 0 {
      NoTokenNoText(es[..|es| - 1]);
    }
  }

  /** After a send on an open channel, any run of inbound frames leaves exactly the user
      message and at most one assistant message after the earlier messages, and that
      assistant message holds the concatenation of every token's content. */
  lemma {:induction false} StreamAssembly(s: Engine, text: string, stamp: string, es: seq<Event>)
    requires CanSend(s)
    requires AllFrames(es)
    ensures Run(Step(s, SendMessage(text, stamp)).state, es).buffer == TokenText(es)
    ensures Run(Step(s, SendMessage(text, stamp)).state, es).messages
            == s.messages + [Message(stamp, User, text, None)] + AssistantTurn(es)
  {
    var t := Step(s, SendMessage(text, stamp)).state;
    if |es| == 0 {
      assert Run(t, es) == t;
    } else {
      var p := es[..|es| - 1];
      var e := es[|es| - 1];
      assert AllFrames(p) by {
        forall i | 0 <= i < |p| ensures p[i].FrameReceived? {
          assert p[i] == es[i];
        }
      }
      StreamAssembly(s, text, stamp, p);
      var before := Run(t, p);
      assert e.FrameReceived?;
      assert Run(t, es) == OnFrame(before, e.frame, e.stamp).state;
      var base := s.messages + [Message(stamp, User, text, None)];
      if e.frame.Token? {
        if FirstTokenStamp(p).None? {
          NoTokenNoText(p);
          assert before.messages == base;
          assert OpensTurn(before.messages);
        } else {
          assert before.messages == base + [Message(FirstTokenStamp(p).value, Assistant, TokenText(p), None)];
          assert !OpensTurn(before.messages);
          assert Run(t, es).messages[..|before.messages| - 1] == base;
        }
      }
    }
  }

  /** Inbound frames never touch the session, the channel or the open handles. */
  lemma {:induction false} FramesKeepSession(s: Engine, es: seq<Event>)
    requires AllFrames(es)
    ensures Run(s, es).currentSessionId == s.currentSessionId
    ensures Run(s, es).channel == s.channel
    ensures Run(s, es).live == s.live
  {
    if |es| > 0 {
      var p := es[..|es| - 1];
      assert AllFrames(p) by {
        forall i | 0 <= i < |p| ensures p[i].FrameReceived? {
          assert p[i] == es[i];
        }
      }
      FramesKeepSession(s, p);
      assert es[|es| - 1].FrameReceived?;
    }
  }

  // ---------------------------------------------------------------------------------
  // At most one live channel

  lemma InitialHasNoChannel()
    ensures AtMostOneLiveChannel(Initial)
    ensures |Initial.live| == 0
  {
  }

  /** With the guarded history fetch, every reachable state holds at most one live channel,
      and it is the one the hook holds. */
  lemma {:induction false} RunKeepsOneLiveChannel(s: Engine, es: seq<Event>)
    requires AtMostOneLiveChannel(s)
    ensures AtMostOneLiveChannel(Run(s, es))
    ensures |Run(s, es).live| <= 1
  {
    if |es| > 0 {
      RunKeepsOneLiveChannel(s, es[..|es| - 1]);
    }
    LiveChannelCount(Run(s, es));
  }

  /** A second session switch supersedes the first load: the first load's history, whatever
      its reply, changes nothing and opens nothing. */
  lemma SupersededLoadIsDropped(s: Engine, a: string, b: string, history: Reply<seq<Message>>)
    ensures
      var first := Step(s, LoadSession(a));
      var second := Step(first.state, LoadSession(b));
      var late := Step(second.state, HistoryFetched(Ticket(s.generation + 1, a), history));
      late == Outcome(second.state, [])
    ensures
      var first := Step(s, LoadSession(a));
      var second := Step(first.state, StartNewSession(b));
      var late := Step(second.state, HistoryFetched(Ticket(s.generation + 1, a), history));
      late == Outcome(second.state, [])
  {
  }

  /** Once a ticket is superseded it stays superseded: whatever events follow, a reply for it
      changes nothing and opens nothing. */
  lemma {:induction false} SupersededStaysDropped(s: Engine, es: seq<Event>, t: Ticket)
    requires TicketsCurrent(s) && s.awaiting != Some(t) && t.generation <= s.generation
    ensures TicketsCurrent(Run(s, es)) && Run(s, es).awaiting != Some(t)
    ensures t.generation <= Run(s, es).generation
    ensures forall h :: Step(Run(s, es), HistoryFetched(t, h)) == Outcome(Run(s, es), [])
  {
    if |es| > 0 {
      SupersededStaysDropped(s, es[..|es| - 1], t);
    }
  }

  /** A load followed by a second switch of either kind: the first load's reply is dropped
      however late it arrives, whatever events come in between. */
  lemma LateReplyIsDropped(s: Engine, a: string, second: Event, es: seq<Event>, h: Reply<seq<Message>>)
    requires TicketsCurrent(s)
    requires second.LoadSession? || second.StartNewSession?
    ensures
      var after := Step(Step(s, LoadSession(a)).state, second).state;
      Step(Run(after, es), HistoryFetched(Ticket(s.generation + 1, a), h)) == Outcome(Run(after, es), [])
  {
    var after := Step(Step(s, LoadSession(a)).state, second).state;
    SupersededStaysDropped(after, es, Ticket(s.generation + 1, a));
  }

  /** The trace that shows the unguarded fetch: a load for "a" begins, a new session "b" is
      started before the history arrives, then the history arrives. */
  function RaceTrace(m: Message): seq<Event>
  {
    [LoadSession("a"), StartNewSession("b"), HistoryFetched(Ticket(1, "a"), Ok(Some([m])))]
  }

  /** As written, the late history replaces the new session's messages and a second channel
      is opened while the first is never closed. */
  lemma LeakedChannelAsWritten(m: Message)
    ensures RunAsWritten(Initial, RaceTrace(m)).currentSessionId == Some("b")
    ensures RunAsWritten(Initial, RaceTrace(m)).messages == [m]
    ensures RunAsWritten(Initial, RaceTrace(m)).live == {0, 1}
    ensures !AtMostOneLiveChannel(RunAsWritten(Initial, RaceTrace(m)))
  {
    var es := RaceTrace(m);
    assert es[..2][..1] == [LoadSession("a")];
    assert es[..2] == [LoadSession("a"), StartNewSession("b")];
    var s1 := StepAsWritten(Initial, LoadSession("a")).state;
    assert s1.live == {};
    var s2 := StepAsWritten(s1, StartNewSession("b")).state;
    assert s2.live == {0};
    var s3 := StepAsWritten(s2, es[2]).state;
    assert s3.live == {0} + {1};
    assert [LoadSession("a")][..0] == [];
    assert RunAsWritten(Initial, [LoadSession("a")]) == s1;
    assert RunAsWritten(Initial, es[..2]) == s2;
    assert RunAsWritten(Initial, es) == s3;
  }

  /** With the guard, the same trace keeps the new session, its empty message list and its
      one channel. */
  lemma RaceTraceGuarded(m: Message)
    ensures Run(Initial, RaceTrace(m)).currentSessionId == Some("b")
    ensures Run(Initial, RaceTrace(m)).messages == []
    ensures Run(Initial, RaceTrace(m)).live == {0}
  {
    var es := RaceTrace(m);
    assert es[..2][..1] == [LoadSession("a")];
    assert es[..2] == [LoadSession("a"), StartNewSession("b")];
    var s1 := Step(Initial, LoadSession("a")).state;
    assert s1.live == {};
    var s2 := Step(s1, StartNewSession("b")).state;
    assert s2.live == {0};
    assert [LoadSession("a")][..0] == [];
    assert Run(Initial, [LoadSession("a")]) == s1;
    assert Run(Initial, es[..2]) == s2;
    assert Run(Initial, es) == Step(s2, es[2]).state == s2;
  }

  // ---------------------------------------------------------------------------------
  // End-to-end scenarios

  /** A step frame on a fresh turn: the trace holds it and the status is thinking. */
  lemma ScenarioStep(s: Engine)
    requires s.thinkingSteps == []
    ensures OnFrame(s, ThinkingStep("searching web"), "1").state.status == Thinking
    ensures OnFrame(s, ThinkingStep("searching web"), "1").state.thinkingSteps == ["searching web"]
  {
  }

  /** Two tokens after a send: one assistant message reading "Hello world", streaming. */
  lemma ScenarioTokens(s: Engine)
    requires s.messages == [] && s.buffer == ""
    ensures
      var b := OnFrame(s, Token("Hello"), "2").state;
      var c := OnFrame(b, Token(" world"), "3").state;
      c.status == Streaming && c.messages == [Message("2", Assistant, "Hello world", None)]
  {
    var b := OnFrame(s, Token("Hello"), "2").state;
    assert b.buffer == "Hello";
    assert b.messages == [Message("2", Assistant, "Hello", None)];
    var c := OnFrame(b, Token(" world"), "3").state;
    assert c.buffer == "Hello world";
  }

  /** Done after streaming: connected again, and the session list is requested. */
  lemma ScenarioDone(s: Engine)
    requires s.status == Streaming
    ensures OnFrame(s, Done, "4").state.status == Connected
    ensures OnFrame(s, Done, "4").effects == [RequestSessions]
  {
  }

  /** `sendMessage("Hi")` on an open channel, whatever the buffer and trace held before. */
  lemma ScenarioSendHi(s: Engine, stamp: string)
    requires CanSend(s)
    ensures
      var o := Send(s, "Hi", stamp);
      && o.state.messages[|o.state.messages| - 1] == Message(stamp, User, "Hi", None)
      && o.state.thinkingSteps == []
      && o.effects == [Transmit(s.channel.value.handle, "Hi")]
  {
  }
}

=== FILE: common.dfy ===
/** Small shared vocabulary: optional values and the outcome of an HTTP request. */
module Common {

  /** A value that may be absent (a JavaScript `null`/`undefined`). */
  datatype Option<+T> = None | Some(value: T)

  /** What a `fetch` followed by `res.json()` produced, as far as the callers look at it:
      a response with `res.ok` and a parsed body (`None` when the body is JSON `null`),
      a response without `res.ok`, or a thrown exception (network error, unreadable body). */
  datatype Reply<+T> = Ok(body: Option<T>) | NotOk | Failed

  /** How a request whose body is not looked at ended: a response with or without `res.ok`,
      or a thrown exception. */
  datatype Completion = Completed(ok: bool) | Threw

  /** JavaScript's `value || fallback` for a string that may be missing: an absent or empty
      string gives the fallback. */
  function OrElse(value: Option<string>, fallback: string): (r: string)
    ensures value.Some? && value.value != "" ==> r == value.value
    ensures value.None? || value.value == "" ==> r == fallback
  {
    if value.Some? && value.value != "" then value.value else fallback
  }
}

=== FILE: model_config.dfy ===
/** The model-configuration dialog: the models on offer, each agent's saved configuration,
    the selection shown for the chosen agent, and the save and "use default" actions. */
module ModelConfig {
  import opened Common
  import Seqs
  import Text

  datatype ModelOption = ModelOption(
    provider: string, modelName: string, displayName: string, description: string, baseUrl: string)

  datatype UserModelConfig = UserModelConfig(
    userId: string, agentType: string, provider: string, apiKey: string, modelName: string, baseUrl: string)

  datatype AgentType = Supervisor | Researcher | Coder

  /** The agent type's name as the server keys it. */
  function AgentName(a: AgentType): string
  {
    match a
    case Supervisor => "Supervisor"
    case Researcher => "Researcher"
    case Coder => "Coder"
  }

  /** The JSON body of a response as the dialog inspects it: an array, any other JSON value,
      or nothing readable (the request or the parse threw). */
  datatype Body<+T> = JsonArray(items: seq<T>) | OtherJson | Unreadable

  /** The requests the dialog makes. */
  datatype Request =
    | ListModels
    | ListConfigs
    | SaveConfig(agentType: string, provider: string, apiKey: string, modelName: string, baseUrl: string)
    | DeleteConfig(agentType: string)

  datatype Dialog = Dialog(
    models: seq<ModelOption>,
    configs: map<string, UserModelConfig>,
    selectedAgent: AgentType,
    selectedModel: Option<ModelOption>,
    apiKey: string,
    saving: bool,
    error: string,
    success: string)

  datatype Outcome = Outcome(dialog: Dialog, requests: seq<Request>)

  const LoadModelsFailed := "无法加载模型列表"
  const NoModelSelected := "请先选择一个模型"
  const NoApiKey := "请输入 API Key"
  const SaveFailed := "保存配置失败"
  const Saved := "配置已保存"
  const ResetFailed := "恢复默认配置失败"
  const ResetDone := "已恢复默认配置"

  /** The dialog's initial state: no models, no configurations, the Supervisor tab. */
  const Initial: Dialog := Dialog([], map[], Supervisor, None, "", false, "", "")

  // ---------------------------------------------------------------------------------
  // Loading

  /** Opening the dialog clears the error and asks for the model list, and for the saved
      configurations when a credential is stored. */
  function OpenDialog(d: Dialog, hasToken: bool): (o: Outcome)
    ensures o.dialog == d.(error := "")
    ensures ListModels in o.requests
    ensures ListConfigs in o.requests <==> hasToken
    ensures forall r :: r in o.requests ==> r == ListModels || r == ListConfigs
  {
    Outcome(d.(error := ""), [ListModels] + (if hasToken then [ListConfigs] else []))
  }

  /** The model list becomes the body when it is an array and empty for any other JSON value;
      a failed request keeps the list and reports the error. */
  function ModelsLoaded(d: Dialog, body: Body<ModelOption>): (r: Dialog)
    ensures body.JsonArray? ==> r == d.(models := body.items)
    ensures body.OtherJson? ==> r == d.(models := [])
    ensures body.Unreadable? ==> r == d.(error := LoadModelsFailed)
  {
    match body
    case JsonArray(items) => d.(models := items)
    case OtherJson => d.(models := [])
    case Unreadable => d.(error := LoadModelsFailed)
  }

  /** Entry `i` is the last one for agent type `t`. */
  predicate IsLastFor(cfgs: seq<UserModelConfig>, t: string, i: int)
  {
    && 0 <= i < |cfgs|
    && cfgs[i].agentType == t
    && forall j :: i < j < |cfgs| ==> cfgs[j].agentType != t
  }

  /** Reference reading: scanning from the back, the first entry of agent type `t`. */
  function LastFor(cfgs: seq<UserModelConfig>, t: string): Option<UserModelConfig>
  {
    if |cfgs| == 0 then None
    else if cfgs[|cfgs| - 1].agentType == t then Some(cfgs[|cfgs| - 1])
    else LastFor(cfgs[..|cfgs| - 1], t)
  }

  /** The `forEach` that builds `configMap`: every entry is stored under its agent type in
      list order, so the map holds, for each type that occurs, the last entry of that type. */
  function ConfigMap(cfgs: seq<UserModelConfig>): (m: map<string, UserModelConfig>)
    ensures forall t :: t in m <==> LastFor(cfgs, t).Some?
    ensures forall t :: t in m ==> m[t] == LastFor(cfgs, t).value
  {
    if |cfgs| == 0 then map[]
    else
      var n := |cfgs| - 1;
      ConfigMap(cfgs[..n])[cfgs[n].agentType := cfgs[n]]
  }

  /** The back-to-front reading agrees with the positional one: it finds an entry exactly
      when the type occurs, and the entry it finds is the last of that type. */
  lemma {:induction false} LastForIsLast(cfgs: seq<UserModelConfig>, i: int)
    requires 0 <= i < |cfgs|
    ensures LastFor(cfgs, cfgs[i].agentType).Some?
    ensures IsLastFor(cfgs, cfgs[i].agentType, i) ==> LastFor(cfgs, cfgs[i].agentType) == Some(cfgs[i])
  {
    var n := |cfgs| - 1;
    if i < n && cfgs[n].agentType != cfgs[i].agentType {
      LastForIsLast(cfgs[..n], i);
      assert cfgs[..n][i] == cfgs[i];
    }
  }

  /** Every entry's agent type is a key, and it maps to the last entry of that type. */
  lemma ConfigMapKeepsLast(cfgs: seq<UserModelConfig>, i: int)
    requires 0 <= i < |cfgs|
    ensures cfgs[i].agentType in ConfigMap(cfgs)
    ensures IsLastFor(cfgs, cfgs[i].agentType, i) ==> ConfigMap(cfgs)[cfgs[i].agentType] == cfgs[i]
  {
    LastForIsLast(cfgs, i);
  }

  /** The configurations are replaced only by an array body; anything else keeps them. */
  function ConfigsLoaded(d: Dialog, body: Body<UserModelConfig>): (r: Dialog)
    ensures body.JsonArray? ==> r == d.(configs := ConfigMap(body.items))
    ensures !body.JsonArray? ==> r == d
  {
    if body.JsonArray? then d.(configs := ConfigMap(body.items)) else d
  }

  // ---------------------------------------------------------------------------------
  // Grouping for display

  /** The models of one provider, in list order. */
  function ModelsOf(models: seq<ModelOption>, provider: string): seq<ModelOption>
  {
    Seqs.Filter(models, (m: ModelOption) => m.provider == provider)
  }

  function Providers(models: seq<ModelOption>): set<string>
  {
    set i | 0 <= i < |models| :: models[i].provider
  }

  /** Adding the model at position `i` to the models before it: only that model's provider
      gains it, at the end of its group, and a provider seen for the first time had none. */
  lemma ModelsOfExtend(models: seq<ModelOption>, i: int)
    requires 0 <= i < |models|
    ensures forall p ::
              ModelsOf(models[..i + 1], p) ==
              ModelsOf(models[..i], p) + (if models[i].provider == p then [models[i]] else [])
    ensures Providers(models[..i + 1]) == Providers(models[..i]) + {models[i].provider}
    ensures models[i].provider !in Providers(models[..i]) ==> ModelsOf(models[..i], models[i].provider) == []
  {
    var m := models[i];
    assert models[..i + 1] == models[..i] + [m];
    forall p ensures ModelsOf(models[..i + 1], p) ==
      ModelsOf(models[..i], p) + (if m.provider == p then [m] else [])
    {
      Seqs.FilterSnoc(models[..i], m, (x: ModelOption) => x.provider == p);
    }
    assert forall j :: 0 <= j < i ==> models[..i + 1][j] == models[..i][j];
    if m.provider !in Providers(models[..i]) {
      assert forall j :: 0 <= j < i ==> models[..i][j].provider in Providers(models[..i]);
      Seqs.FilterKeepsNone(models[..i], (x: ModelOption) => x.provider == m.provider);
    }
  }

  /** The `modelsByProvider` reduce: one group per provider that occurs, holding exactly that
      provider's models in list order, so no group is empty. */
  method GroupByProvider(models: seq<ModelOption>) returns (groups: map<string, seq<ModelOption>>)
    ensures groups.Keys == Providers(models)
    ensures forall p :: p in groups ==> groups[p] == ModelsOf(models, p)
    ensures forall p :: p in groups ==> |groups[p]| > 0
  {
    groups := map[];
    var i := 0;
    while i < |models|
      invariant 0 <= i <= |models|
      invariant groups.Keys == Providers(models[..i])
      invariant forall p :: p in groups ==> groups[p] == ModelsOf(models[..i], p)
      invariant forall p :: p in groups ==> |groups[p]| > 0
    {
      var m := models[i];
      ModelsOfExtend(models, i);
      var group := if m.provider in groups then groups[m.provider] else [];
      groups := groups[m.provider := group + [m]];
      i := i + 1;
    }
    assert models[..i] == models;
  }

  /** Each model sits in the group of its own provider, and only there. */
  lemma GroupMembership(models: seq<ModelOption>, x: ModelOption, p: string)
    ensures x in ModelsOf(models, p) <==> x in models && x.provider == p
  {
  }

  /** A provider's group keeps the order the models came in. */
  lemma GroupKeepsOrder(models: seq<ModelOption>, p: string)
    ensures Seqs.IsSubsequence(ModelsOf(models, p), models)
  {
  }

  // ---------------------------------------------------------------------------------
  // Selection

  /** `models.find(m => m.model_name === name)`. */
  function FindModel(models: seq<ModelOption>, name: string): (r: Option<ModelOption>)
    ensures r.None? <==> forall i :: 0 <= i < |models| ==> models[i].modelName != name
    ensures r.Some? ==> exists i :: 0 <= i < |models| && models[i] == r.value
                          && forall j :: 0 <= j < i ==> models[j].modelName != name
    ensures r.Some? ==> r.value.modelName == name
  {
    if |models| == 0 then None
    else if models[0].modelName == name then Some(models[0])
    else
      var r := FindModel(models[1..], name);
      assert r.Some? ==> exists i :: 0 <= i < |models| && models[i] == r.value
                          && forall j :: 0 <= j < i ==> models[j].modelName != name by {
        if r.Some? {
          var i :| 0 <= i < |models[1..]| && models[1..][i] == r.value
                   && forall j :: 0 <= j < i ==> models[1..][j].modelName != name;
          assert models[i + 1] == r.value;
          assert forall j :: 0 <= j < i + 1 ==> models[j].modelName != name by {
            forall j | 0 <= j < i + 1 ensures models[j].modelName != name {
              if j > 0 {
                assert models[j] == models[1..][j - 1];
              }
            }
          }
        }
      }
      r
  }

  /** The agent's saved configuration names a model. */
  predicate HasConfiguredModel(d: Dialog)
  {
    AgentName(d.selectedAgent) in d.configs && d.configs[AgentName(d.selectedAgent)].modelName != ""
  }

  /** The effect that follows the selected agent, the configurations and the models: with a
      saved configuration naming a model, the first model of that name (if listed) and the
      saved key are shown; otherwise nothing is selected and the key is empty. */
  function Sync(d: Dialog): (r: Dialog)
    ensures HasConfiguredModel(d) ==>
      var cfg := d.configs[AgentName(d.selectedAgent)];
      && r.selectedModel == FindModel(d.models, cfg.modelName)
      && r.apiKey == cfg.apiKey
    ensures !HasConfiguredModel(d) ==> r.selectedModel.None? && r.apiKey == ""
    ensures r == d.(selectedModel := r.selectedModel, apiKey := r.apiKey)
  {
    if HasConfiguredModel(d) then
      var cfg := d.configs[AgentName(d.selectedAgent)];
      d.(selectedModel := FindModel(d.models, cfg.modelName), apiKey := cfg.apiKey)
    else d.(selectedModel := None, apiKey := "")
  }

  // ---------------------------------------------------------------------------------
  // Save and "use default"

  /** The save button: a model is selected, the key is not blank, and no save is running. */
  function SaveEnabled(d: Dialog): (r: bool)
    ensures r <==> !d.saving && SaveCheck(d).None?
  {
    Text.TrimEmptyIffBlank(d.apiKey);
    d.selectedModel.Some? && Text.Trim(d.apiKey) != "" && !d.saving
  }

  /** The "use default" button: no save is running and the agent has a saved configuration. */
  function DefaultEnabled(d: Dialog): (r: bool)
    ensures r <==> !d.saving && UseDefault(d, true).dialog.configs.Keys < d.configs.Keys
  {
    !d.saving && AgentName(d.selectedAgent) in d.configs
  }

  /** The validation `handleSave` does before any request: the model first, then the key. */
  function SaveCheck(d: Dialog): (r: Option<string>)
    ensures d.selectedModel.None? ==> r == Some(NoModelSelected)
    ensures d.selectedModel.Some? && Text.IsBlank(d.apiKey) ==> r == Some(NoApiKey)
    ensures r.None? <==> d.selectedModel.Some? && !Text.IsBlank(d.apiKey)
  {
    Text.TrimEmptyIffBlank(d.apiKey);
    if d.selectedModel.None? then Some(NoModelSelected)
    else if Text.Trim(d.apiKey) == "" then Some(NoApiKey)
    else None
  }

  /** The configuration a successful save records for the selected agent. */
  function SavedConfig(d: Dialog): UserModelConfig
    requires d.selectedModel.Some?
  {
    var m := d.selectedModel.value;
    UserModelConfig("", AgentName(d.selectedAgent), m.provider, d.apiKey, m.modelName, m.baseUrl)
  }

  /** `handleSave`, given whether the request came back ok. A failed validation sets its
      error and sends nothing; a sent request carries the key exactly as typed; an ok reply
      records the configuration for the selected agent only, a failure changes no
      configuration. */
  function Save(d: Dialog, ok: bool): (o: Outcome)
    ensures SaveCheck(d).Some? ==> o == Outcome(d.(error := SaveCheck(d).value), [])
    ensures SaveCheck(d).None? ==>
      var m := d.selectedModel.value;
      && o.requests == [SaveConfig(AgentName(d.selectedAgent), m.provider, d.apiKey, m.modelName, m.baseUrl)]
      && !o.dialog.saving
    ensures SaveCheck(d).None? && ok ==>
      o.dialog == d.(configs := d.configs[AgentName(d.selectedAgent) := SavedConfig(d)],
                     saving := false, error := "", success := Saved)
    ensures SaveCheck(d).None? && !ok ==>
      o.dialog == d.(saving := false, error := SaveFailed, success := "")
    ensures forall k :: k != AgentName(d.selectedAgent) ==>
      (k in o.dialog.configs <==> k in d.configs) &&
      (k in d.configs ==> o.dialog.configs[k] == d.configs[k])
  {
    match SaveCheck(d)
    case Some(e) => Outcome(d.(error := e), [])
    case None =>
      var m := d.selectedModel.value;
      var request := SaveConfig(AgentName(d.selectedAgent), m.provider, d.apiKey, m.modelName, m.baseUrl);
      if ok then
        Outcome(d.(configs := d.configs[AgentName(d.selectedAgent) := SavedConfig(d)],
                   saving := false, error := "", success := Saved), [request])
      else Outcome(d.(saving := false, error := SaveFailed, success := ""), [request])
  }

  /** `handleUseDefault`, given whether the delete came back ok: an ok reply removes the
      selected agent's configuration only and clears the selection and key. */
  function UseDefault(d: Dialog, ok: bool): (o: Outcome)
    ensures o.requests == [DeleteConfig(AgentName(d.selectedAgent))]
    ensures !o.dialog.saving
    ensures ok ==>
      && o.dialog.configs.Keys == d.configs.Keys - {AgentName(d.selectedAgent)}
      && (forall k :: k in o.dialog.configs ==> o.dialog.configs[k] == d.configs[k])
      && o.dialog.selectedModel.None? && o.dialog.apiKey == ""
      && o.dialog.success == ResetDone && o.dialog.error == ""
    ensures ok ==>
      o.dialog == d.(configs := d.configs - {AgentName(d.selectedAgent)}, selectedModel := None,
                     apiKey := "", saving := false, error := "", success := ResetDone)
    ensures !ok ==> o.dialog == d.(saving := false, error := ResetFailed, success := "")
  {
    var request := DeleteConfig(AgentName(d.selectedAgent));
    if ok then
      Outcome(d.(configs := d.configs - {AgentName(d.selectedAgent)}, selectedModel := None,
                 apiKey := "", saving := false, error := "", success := ResetDone), [request])
    else Outcome(d.(saving := false, error := ResetFailed, success := ""), [request])
  }

  // ---------------------------------------------------------------------------------
  // Buttons and handlers agree

  /** While no save is running, the save button is enabled exactly when clicking it sends
      a request. */
  lemma SaveEnabledIffRequest(d: Dialog, ok: bool)
    ensures SaveEnabled(d) <==> !d.saving && Save(d, ok).requests != []
  {
    Text.TrimEmptyIffBlank(d.apiKey);
  }

  /** After a successful save, the selection effect that follows shows the key as typed and
      the first listed model of the saved name. */
  lemma SaveThenSync(d: Dialog)
    requires d.selectedModel.Some? && d.selectedModel.value.modelName != ""
    requires !Text.IsBlank(d.apiKey)
    ensures Sync(Save(d, true).dialog).apiKey == d.apiKey
    ensures Sync(Save(d, true).dialog).selectedModel == FindModel(d.models, d.selectedModel.value.modelName)
  {
  }

  /** When the "use default" button is enabled and the delete succeeds, exactly one
      configuration is gone, and the selection effect that follows keeps nothing selected. */
  lemma UseDefaultRemovesOne(d: Dialog)
    requires DefaultEnabled(d)
    ensures |UseDefault(d, true).dialog.configs| == |d.configs| - 1
    ensures Sync(UseDefault(d, true).dialog).selectedModel.None?
    ensures Sync(UseDefault(d, true).dialog).apiKey == ""
  {
    var r := UseDefault(d, true).dialog;
    assert r.configs.Keys == d.configs.Keys - {AgentName(d.selectedAgent)};
    assert |r.configs.Keys| == |d.configs.Keys| - 1;
  }
}

=== FILE: register.dfy ===
/** The registration form: the order of its checks, the request it sends, and what the
    reply does to the error line and the navigation. */
module Register {
  import opened Common
  import Text

  datatype Form = Form(email: string, password: string, confirmPassword: string, isLoading: bool, error: string)

  datatype Credentials = Credentials(email: string, password: string)

  /** What the register request came back with: a response (its `res.ok` and the body's
      `error` field) or a thrown exception with its message (network failure, a body that is
      not JSON). */
  datatype RegisterReply = Replied(ok: bool, errorField: Option<string>) | Threw(message: string)

  datatype Outcome = Outcome(form: Form, request: Option<Credentials>, navigateTo: Option<string>)

  const Mismatch := "Passwords do not match"
  const TooShort := "Password must be at least 6 characters"
  const RegistrationFailed := "Registration failed"
  const AfterRegistration := "/auth/login?registered=true"
  const MinLength := 6

  /** The checks before any request, in order: the two passwords agree, then the password
      is long enough (in UTF-16 code units, as `password.length` counts). */
  function Validate(password: string, confirmPassword: string): (r: Option<string>)
    ensures password != confirmPassword ==> r == Some(Mismatch)
    ensures password == confirmPassword && Text.Utf16Length(password) < MinLength ==> r == Some(TooShort)
    ensures r.None? <==> password == confirmPassword && Text.Utf16Length(password) >= MinLength
  {
    if password != confirmPassword then Some(Mismatch)
    else if Text.Utf16Length(password) < MinLength then Some(TooShort)
    else None
  }

  /** `handleRegister`, given what the request would come back with. */
  function HandleRegister(f: Form, reply: RegisterReply): (o: Outcome)
    ensures f.password != f.confirmPassword ==> o == Outcome(f.(error := Mismatch), None, None)
    ensures f.password == f.confirmPassword && Text.Utf16Length(f.password) < MinLength ==>
      o == Outcome(f.(error := TooShort), None, None)
    ensures o.request.Some? <==> Validate(f.password, f.confirmPassword).None?
    ensures o.request.Some? ==> o.request.value == Credentials(f.email, f.password) && !o.form.isLoading
    ensures o.navigateTo.Some? <==> o.request.Some? && reply.Replied? && reply.ok
    ensures o.navigateTo.Some? ==> o.navigateTo.value == AfterRegistration && o.form.error == ""
    ensures o.request.Some? && reply.Replied? && !reply.ok ==>
      o.form.error == OrElse(reply.errorField, RegistrationFailed)
    ensures o.request.Some? && reply.Threw? ==> o.form.error == reply.message
    ensures o.form.email == f.email && o.form.password == f.password
    ensures o.form.confirmPassword == f.confirmPassword
  {
    var cleared := f.(error := "");
    match Validate(f.password, f.confirmPassword)
    case Some(e) => Outcome(cleared.(error := e), None, None)
    case None =>
      var request := Some(Credentials(f.email, f.password));
      match reply
      case Replied(ok, errorField) =>
        if ok then Outcome(cleared.(isLoading := false), request, Some(AfterRegistration))
        else Outcome(cleared.(isLoading := false, error := OrElse(errorField, RegistrationFailed)), request, None)
      case Threw(message) => Outcome(cleared.(isLoading := false, error := message), request, None)
  }

  /** The error line is cleared at the start of every attempt: what an attempt shows does not
      depend on the error left by the attempt before. */
  lemma ErrorClearedEachAttempt(f: Form, g: Form, reply: RegisterReply)
    requires f.(error := "") == g.(error := "")
    ensures HandleRegister(f, reply) == HandleRegister(g, reply)
  {
  }

  /** Unequal passwords are reported as a mismatch whatever their lengths, so the length
      message is only ever about a confirmed password. */
  lemma MismatchComesFirst(f: Form, reply: RegisterReply)
    requires HandleRegister(f, reply).form.error == TooShort
    requires HandleRegister(f, reply).request.None?
    ensures f.password == f.confirmPassword
  {
  }
}

=== FILE: seqs.dfy ===
/** Order-preserving selection from a sequence (JavaScript's `Array.prototype.filter`). */
module Seqs {

  /** `a` can be obtained from `b` by deleting elements, keeping the order of the rest. */
  predicate IsSubsequence<T(==)>(a: seq<T>, b: seq<T>)
    decreases |b|
  {
    |a| == 0 ||
    (|b| > 0 && ((a[0] == b[0] && IsSubsequence(a[1..], b[1..])) || IsSubsequence(a, b[1..])))
  }

  /** Number of occurrences of `x` in `s`. */
  function Count<T(==)>(s: seq<T>, x: T): nat
  {
    if |s| == 0 then 0 else (if s[0] == x then 1 else 0) + Count(s[1..], x)
  }

  /** The elements of `s` for which `keep` holds, in their original order. */
  function Filter<T(==,!new)>(s: seq<T>, keep: T -> bool): (r: seq<T>)
    ensures |r| <= |s|
    ensures forall x :: x in r <==> x in s && keep(x)
    ensures IsSubsequence(r, s)
    ensures forall x :: keep(x) ==> Count(r, x) == Count(s, x)
  {
    if |s| == 0 then []
    else
      var rest := Filter(s[1..], keep);
      if keep(s[0]) then
        assert ([s[0]] + rest)[1..] == rest;
        [s[0]] + rest
      else rest
  }

  /** Keeping everything keeps the sequence as it is. */
  lemma {:induction false} FilterKeepsAll<T(!new)>(s: seq<T>, keep: T -> bool)
    requires forall i :: 0 <= i < |s| ==> keep(s[i])
    ensures Filter(s, keep) == s
  {
    if |s| > 0 {
      FilterKeepsAll(s[1..], keep);
      assert [s[0]] + s[1..] == s;
    }
  }

  /** Filtering a sequence extended by one element extends the filtered sequence by that
      element exactly when it is kept. */
  lemma {:induction false} FilterSnoc<T(!new)>(a: seq<T>, x: T, keep: T -> bool)
    ensures Filter(a + [x], keep) == Filter(a, keep) + (if keep(x) then [x] else [])
  {
    if |a| == 0 {
      assert a + [x] == [x];
      assert [x][1..] == [];
    } else {
      assert (a + [x])[1..] == a[1..] + [x];
      FilterSnoc(a[1..], x, keep);
    }
  }

  /** Keeping nothing gives the empty sequence. */
  lemma {:induction false} FilterKeepsNone<T(!new)>(s: seq<T>, keep: T -> bool)
    requires forall i :: 0 <= i < |s| ==> !keep(s[i])
    ensures Filter(s, keep) == []
  {
    if |s| > 0 {
      FilterKeepsNone(s[1..], keep);
    }
  }

  /** Filtering depends only on which elements are kept. */
  lemma {:induction false} FilterCongruent<T(!new)>(s: seq<T>, keep: T -> bool, keep': T -> bool)
    requires forall i :: 0 <= i < |s| ==> keep(s[i]) == keep'(s[i])
    ensures Filter(s, keep) == Filter(s, keep')
  {
    if |s| > 0 {
      FilterCongruent(s[1..], keep, keep');
    }
  }
}

=== FILE: text.dfy ===
/** The JavaScript string operations the pages rely on, stated over Dafny strings
    (sequences of Unicode scalar values). */
module Text {

  /** `toLowerCase` on one character, for the ASCII range; other characters are kept. */
  function LowerChar(c: char): char
  {
    if 'A' <= c <= 'Z' then (c as int + ('a' as int - 'A' as int)) as char else c
  }

  /** `toLowerCase` on a string: character-wise, length-preserving. */
  function ToLower(s: string): (r: string)
    ensures |r| == |s|
    ensures forall i :: 0 <= i < |s| ==> r[i] == LowerChar(s[i])
    ensures forall i :: 0 <= i < |r| ==> !('A' <= r[i] <= 'Z')
  {
    seq(|s|, i requires 0 <= i < |s| => LowerChar(s[i]))
  }

  /** Lower-casing twice is lower-casing once. */
  lemma ToLowerIdempotent(s: string)
    ensures ToLower(ToLower(s)) == ToLower(s)
  {
  }

  /** `sub` occurs in `s` starting at position `i`. */
  predicate OccursAt(s: string, sub: string, i: nat)
  {
    i + |sub| <= |s| && s[i..i + |sub|] == sub
  }

  /** `s.includes(sub)`: a naive left-to-right search. */
  function Includes(s: string, sub: string): (r: bool)
    ensures r <==> exists i: nat :: OccursAt(s, sub, i)
    decreases |s|
  {
    if |sub| > |s| then
      assert forall i: nat :: !OccursAt(s, sub, i);
      false
    else if s[..|sub|] == sub then
      assert OccursAt(s, sub, 0);
      true
    else
      var rest := Includes(s[1..], sub);
      assert forall i: nat :: OccursAt(s, sub, i + 1) <==> OccursAt(s[1..], sub, i) by {
        forall i: nat ensures OccursAt(s, sub, i + 1) <==> OccursAt(s[1..], sub, i) {
          if i + 1 + |sub| <= |s| {
            var a, b := s[i + 1..i + 1 + |sub|], s[1..][i..i + |sub|];
            assert forall k :: 0 <= k < |sub| ==> a[k] == b[k];
          }
        }
      }
      if rest then
        var j: nat :| OccursAt(s[1..], sub, j);
        assert OccursAt(s, sub, j + 1);
        true
      else
        assert forall i: nat :: OccursAt(s, sub, i) ==> i > 0;
        assert forall i: nat :: !OccursAt(s, sub, i) by {
          forall i: nat ensures !OccursAt(s, sub, i) {
            if i > 0 {
              assert !OccursAt(s[1..], sub, i - 1);
            }
          }
        }
        false
  }

  /** Every string includes the empty string (an empty search query matches everything). */
  lemma IncludesEmpty(s: string)
    ensures Includes(s, "")
  {
    assert OccursAt(s, "", 0);
  }

  /** The characters `String.prototype.trim` removes: the ECMAScript WhiteSpace
      (including every space separator) and LineTerminator code points. */
  predicate IsJsSpace(c: char)
  {
    || c == '\t' || c == '\n' || c == '\U{000B}' || c == '\U{000C}' || c == '\r' || c == ' '
    || c == '\U{00A0}' || c == '\U{1680}' || ('\U{2000}' <= c <= '\U{200A}')
    || c == '\U{2028}' || c == '\U{2029}' || c == '\U{202F}' || c == '\U{205F}'
    || c == '\U{3000}' || c == '\U{FEFF}'
  }

  /** Every character of `s` is white space. */
  predicate IsBlank(s: string)
  {
    forall i :: 0 <= i < |s| ==> IsJsSpace(s[i])
  }

  /** Drops the leading white space. */
  function TrimStart(s: string): (r: string)
    ensures |r| <= |s| && r == s[|s| - |r|..]
    ensures forall i :: 0 <= i < |s| - |r| ==> IsJsSpace(s[i])
    ensures |r| == 0 || !IsJsSpace(r[0])
  {
    if |s| > 0 && IsJsSpace(s[0]) then
      var r := TrimStart(s[1..]);
      assert forall i :: 1 <= i < |s| ==> s[i] == s[1..][i - 1];
      r
    else s
  }

  /** Drops the trailing white space. */
  function TrimEnd(s: string): (r: string)
    ensures |r| <= |s| && r == s[..|r|]
    ensures forall i :: |r| <= i < |s| ==> IsJsSpace(s[i])
    ensures |r| == 0 || !IsJsSpace(r[|r| - 1])
  {
    if |s| > 0 && IsJsSpace(s[|s| - 1]) then
      var r := TrimEnd(s[..|s| - 1]);
      assert forall i :: 0 <= i < |s| - 1 ==> s[i] == s[..|s| - 1][i];
      r
    else s
  }

  /** `r` is the slice of `s` starting at `k`, and everything around it is white space. */
  predicate TrimmedAt(s: string, k: nat, r: string)
  {
    && k + |r| <= |s| && r == s[k..k + |r|]
    && (forall i :: 0 <= i < k ==> IsJsSpace(s[i]))
    && (forall i :: k + |r| <= i < |s| ==> IsJsSpace(s[i]))
  }

  /** `s.trim()`: a slice of `s` with only white space around it, and none at either end. */
  function Trim(s: string): (r: string)
    ensures exists k: nat :: TrimmedAt(s, k, r)
    ensures r == [] || (!IsJsSpace(r[0]) && !IsJsSpace(r[|r| - 1]))
  {
    var t := TrimStart(s);
    var r := TrimEnd(t);
    var k := |s| - |t|;
    assert TrimmedAt(s, k, r);
    r
  }

  /** `!s.trim()` holds exactly for the strings made only of white space. */
  lemma TrimEmptyIffBlank(s: string)
    ensures Trim(s) == "" <==> IsBlank(s)
  {
    var t := TrimStart(s);
    assert forall i :: 0 <= i < |t| ==> t[i] == s[|s| - |t| + i];
  }

  /** `s.length` in JavaScript: the number of UTF-16 code units, two for every
      character outside the Basic Multilingual Plane. */
  function Utf16Length(s: string): (n: nat)
    ensures |s| <= n <= 2 * |s|
    ensures (forall i :: 0 <= i < |s| ==> s[i] as int <= 0xFFFF) ==> n == |s|
  {
    if |s| == 0 then 0
    else (if s[0] as int > 0xFFFF then 2 else 1) + Utf16Length(s[1..])
  }

  /** A single character is one UTF-16 unit, or a surrogate pair outside the Basic
      Multilingual Plane. */
  lemma Utf16LengthOne(c: char)
    ensures Utf16Length([c]) == if c as int > 0xFFFF then 2 else 1
  {
    assert [c][1..] == [];
  }

  /** The length of a concatenation is the sum of the lengths. */
  lemma {:induction false} Utf16LengthAppend(a: string, b: string)
    ensures Utf16Length(a + b) == Utf16Length(a) + Utf16Length(b)
    decreases |a|
  {
    if |a| == 0 {
      assert a + b == b;
    } else {
      assert (a + b)[1..] == a[1..] + b;
      Utf16LengthAppend(a[1..], b);
    }
  }
}
